=== FILE: README.md ===
# Workload statistics and field-name handling

This project models the statistics layer of a MongoDB database designer. It
covers two source files.

- `StatsProcessor` in `src/workload/stats.py` keeps per-collection, per-field
  statistics.
  - `reset` zeroes the counters.
  - `processWorkload` counts how often the traced operations reference each
    field (`query_use_count`).
  - `processDataset` counts each collection's rows, and estimates its average
    document size and per-field cardinality and selectivity from a random
    sample of them.
- `src/workload/utilmethods.py` provides two helpers.
  - `escapeFieldNames` rewrites dict keys so that MongoDB can store them. A key
    starting with `$` gets a `\` prefix, and every `.` becomes `__`.
  - `getReferencedFields` lists the fields an operation touches.

The MongoDB collections become in-memory values:
- The metadata records are a `Catalog`, a map from collection name to a
  `CollectionStat`.
- The workload is a sequence of `Session`s.
- Each collection's dataset is a sequence of rows.

`random.randrange(1, 100, 1)` becomes an input: every `DatasetRow` carries its
draw, a value from 1 to 99. The model is pure functions over immutable values.
The one method is `ProcessDataset`, which loops over the catalogue.

Python values are the `Documents.Value` datatype. A dict is an association list
in iteration order with distinct keys (`WellFormed`). Python exceptions become
the `Err` side of `Errors.Result`.

Modules:

| module | file | contents |
|---|---|---|
| `Errors` | errors.dfy | `Option`, `Result`, the exception kinds |
| `Documents` | documents.dfy | the value type and the dict primitives (lookup, `del`, assignment, iteration) |
| `Operations` | operations.dfy | traced operations and sessions |
| `FieldNames`, `FieldNameLaws` | escape.dfy | `escapeFieldNames` and its properties |
| `ReferencedFields` | referenced.dfy | `getReferencedFields`, as written and corrected |
| `Metadata` | metadata.dfy | collection records and `reset` |
| `WorkloadStats`, `WorkloadLaws` | workload_stats.dfy | `processWorkload` and its properties |
| `DatasetStats`, `DatasetLaws` | dataset_stats.dfy | `processDataset` and its properties |

Points where the code's behaviour is easy to misread:
- **Use counts.** A field's use count rises once per content document that
  names it, not once per operation (`WorkloadLaws.PerPairCounting`). An
  operation whose three documents name `x` therefore adds 3.
- **Selectivity.** The code divides two integers with Python 2's `/`, so
  selectivity is always 0 or 1, never a fraction in between
  (`DatasetLaws.SelectivityZeroOrOne`).
- **Sample rate.** The rate is compared with draws from 1 to 99, so every rate
  of 99 or more samples every row (`DatasetLaws.FullSample`), and a rate below
  1 samples none (`DatasetLaws.NoSample`).
- **Missing collection record.** An operation whose collection has no record
  fails, but only after its fields have been extracted, so an extraction error
  is reported first. Operation kinds that are not counted fail the same way.

## Model

| member | source | states |
|---|---|---|
| Metadata.Reset | src/workload/stats.py:44-51 | every collection keeps its fields, tuple count and average size; every field's use count, cardinality and selectivity become 0 and its type is kept |
| Metadata.ResetIdempotent | src/workload/stats.py:44-51 | resetting twice is resetting once |
| WorkloadStats.DocFields | src/workload/stats.py:60-79 | what one content document contributes. An insert or delete document must be a dict and gives its keys. An update document gives its keys when it is a dict and nothing otherwise, never failing. A query document must hold `query`, whose value is None or a dict. Without repeats in a well-formed document |
| WorkloadStats.CollectFields | src/workload/stats.py:60-79 | succeeds iff every content document can be read; each field occurs as many times as there are documents naming it |
| WorkloadStats.ExtractFields | src/workload/stats.py:58-79 | an unrecognised kind contributes no pairs; a counted kind succeeds iff its content is iterable and every element can be read |
| WorkloadStats.Bump | src/workload/stats.py:80-85 | each known field gains one use per occurrence of its name; names that are not fields change nothing; no field is added |
| WorkloadStats.ProcessOp | src/workload/stats.py:57-86 | fails iff extraction fails or the collection has no record, with extraction errors first; otherwise only use counts change, by the operation's pairs in its own collection |
| WorkloadStats.ProcessOps | src/workload/stats.py:57-86 | fails iff some operation fails; otherwise every count rises by the pairs of all operations on its collection and nothing else changes |
| WorkloadStats.ProcessWorkload | src/workload/stats.py:54-86 | the same, over the operations of the first 1000 workload records only |
| WorkloadLaws.WriteMentions | src/workload/stats.py:60-79 | for insert, delete and update, the documents naming a field are exactly the dict documents holding it as a key |
| WorkloadLaws.QueryMentions | src/workload/stats.py:68-72 | for a query, the documents naming a field are exactly those whose `query` entry is a dict holding it |
| WorkloadLaws.PerPairCounting | src/workload/stats.py:58-85 | one operation raises each field of its collection by the number of its content documents naming the field (by its kind's rule; 0 for unrecognised kinds) and leaves other collections unchanged |
| WorkloadLaws.ResetThenWorkload | src/workload/stats.py:44-86 | after reset, the workload pass leaves each use count equal to the field's pair count over the visited operations, with cardinality and selectivity 0 and types kept |
| WorkloadLaws.LaterRecordsIgnored | src/workload/stats.py:56 | appending records after the first 1000 does not change the outcome |
| DatasetStats.Sampled | src/workload/stats.py:120-121 | a row is sampled iff its draw is at most the rate; as draws run from 1 to 99, every row is sampled at a rate of 99 or more and none below 1 |
| DatasetStats.FieldBytes | src/workload/stats.py:124-131 | the size of a field's value by its declared type: int 4, datetime 8, float 8, str `len(v)`, any other type 0; a str-typed value without a length fails with TypeError, and nothing else fails |
| DatasetStats.EntryBytes | src/workload/stats.py:122-134 | the size of one accepted entry: 12 for `_id`, otherwise its field's size by type |
| DatasetStats.ScanRow | src/workload/stats.py:122-134 | scanning a sampled row succeeds iff every non-`_id` key is a known field whose value has a size and is hashable; it adds the row's size estimate and records the row's values per field, never `_id` |
| DatasetStats.ScanRows | src/workload/stats.py:117-134 | scanning the rows succeeds iff every sampled row is acceptable; unsampled rows are never inspected; bytes and distinct values are those of the sampled rows |
| DatasetStats.ProcessCollection | src/workload/stats.py:115-149 | succeeds iff every sampled row is acceptable. Tuple count is all rows. Average size is the sampled bytes floor-divided by the row count, 0 without rows. Each field's cardinality is its number of distinct sampled values, and its selectivity is cardinality floor-divided by row count, 0 without rows. Type and use count are kept |
| DatasetStats.Summarise | src/workload/stats.py:135-149 | from a completed scan, the collection's figures as above, with no field added or dropped |
| DatasetStats.ProcessDataset | src/workload/stats.py:98-151 | succeeds iff every collection record can be processed. Each record becomes its per-collection result, and a collection missing from the dataset counts as having no rows. An error is the error of some failing collection |
| DatasetLaws.DistinctValuesAreSampledValues | src/workload/stats.py:121-132 | the distinct values collected row by row are exactly the values of the field in some sampled row |
| DatasetLaws.RowValuesLookup | src/workload/stats.py:122-132 | a row with unique keys contributes at most one value per field, the one stored under it, and none for `_id` |
| DatasetLaws.CardinalityBound | src/workload/stats.py:118-145 | a field's number of distinct values is at most the number of sampled rows |
| DatasetLaws.SelectivityZeroOrOne | src/workload/stats.py:143-149 | cardinality is at most the tuple count; selectivity is 1 iff the tuple count is positive and equals the cardinality, and 0 otherwise |
| DatasetLaws.FullSample | src/workload/stats.py:120-121 | a sample rate of 99 or more samples every row, so the distinct values are those of all rows |
| DatasetLaws.NothingSampled | src/workload/stats.py:120-134 | with a rate below 1, the scan accepts any rows and collects no bytes and no values |
| DatasetLaws.NoSample | src/workload/stats.py:115-149 | with a rate below 1 processing succeeds, counts every row, and sets size, cardinality and selectivity to 0 |
| DatasetLaws.UnknownFieldFails | src/workload/stats.py:123-124 | a sampled row holding a non-`_id` key that is not a known field makes processing fail |
| DatasetLaws.SingleRowExample | src/workload/stats.py:115-149 | one sampled row `{_id, n: 3}` with `n` an int gives size 16, cardinality 1 and selectivity 1 |
| Documents.Iterate | src/workload/stats.py:61-74 | `for x in v`: a list yields its items, a dict its keys as strings, a str its one-character strings; other values are not iterable |
| Documents.Lookup | src/workload/utilmethods.py:62 | finds a value iff the key is present, and that value is the one stored under the key |
| Documents.Delete | src/workload/utilmethods.py:63 | removes exactly the key and no value is invented; keys stay unique; the dict shrinks when the key was present |
| Documents.DeleteLookup | src/workload/utilmethods.py:63 | after the deletion the key is absent and every other key holds what it held before |
| Documents.Put | src/workload/utilmethods.py:68 | afterwards the key holds the new value and every other key's lookup is unchanged; keys stay unique |
| FieldNames.ReplaceDots | src/workload/utilmethods.py:67 | the result has no `.`; a dot-free string is kept; each dot adds one character |
| FieldNames.SplitDots | src/workload/utilmethods.py:67 | splitting on `.` gives one more piece than there are dots, none containing a dot, and joining the pieces with `.` gives back the string |
| FieldNames.ReplaceDotsIsSplitJoin | src/workload/utilmethods.py:67 | replacing `.` by `__` equals splitting on `.` and joining with `__` |
| FieldNames.FixKey | src/workload/utilmethods.py:65-67 | a `$` key becomes `\` followed by the key with every `.` replaced by `__`; any other key becomes the key with its dots replaced; so a fixed key never needs fixing, a key that needs none is kept, and the length grows by one per dot plus one for the prefix |
| FieldNames.ToFix | src/workload/utilmethods.py:46-50 | exactly the keys that start with `$` or contain `.`, each once |
| FieldNames.LastFixer | src/workload/utilmethods.py:61-68 | a key of the fix list renamed to the given key with no later key in the list renamed to it (the last one), or none when no key in the list is renamed to it |
| FieldNames.FixOne | src/workload/utilmethods.py:62-68 | one renaming step: the key is replaced by its new name, keys stay unique, no value is invented |
| FieldNames.FixOneLookup | src/workload/utilmethods.py:62-68 | after one step the new name holds the old key's value, the old key is gone, and every other key is unchanged |
| FieldNames.FixKeys | src/workload/utilmethods.py:61-69 | the renaming loop: keys stay unique, the dict does not grow, and the keys are the unfixed ones plus the new names |
| FieldNames.EscapeEntries | src/workload/utilmethods.py:47-59 | the first loop keeps every key in place and escapes every value |
| FieldNames.EscapeValue | src/workload/utilmethods.py:51-58 | a dict becomes the escaped form of that dict (`EscapeFieldNames` of its entries); in a list only the dict elements are escaped, other elements (nested lists too) are kept; scalars are kept |
| FieldNames.EscapeItems | src/workload/utilmethods.py:53-57 | list elements that are dicts are escaped, the rest kept, the length unchanged |
| FieldNames.EscapeFieldNames | src/workload/utilmethods.py:43-71 | no key the function reaches starts with `$` or contains `.`; the result is a well-formed dict no larger than the input whose keys are the clean input keys plus the new names of the others |
| FieldNameLaws.NoKeyToFix | src/workload/utilmethods.py:47-50 | a dict with no key to fix has an empty fix list |
| FieldNameLaws.EscapedDocFixed | src/workload/utilmethods.py:43-71 | an already escaped dict is returned unchanged |
| FieldNameLaws.EscapedEntriesFixed | src/workload/utilmethods.py:47-59 | the first loop leaves an escaped dict unchanged |
| FieldNameLaws.EscapedValueFixed | src/workload/utilmethods.py:51-58 | an escaped value is returned unchanged |
| FieldNameLaws.EscapeIdempotent | src/workload/utilmethods.py:43-71 | escaping twice is escaping once |
| FieldNameLaws.EscapeUnchangedIff | src/workload/utilmethods.py:43-71 | a dict comes back unchanged iff no key the function reaches needs fixing |
| FieldNameLaws.FixKeysLookup | src/workload/utilmethods.py:61-69 | after the renaming loop a key holds the value of the last key renamed to it, else its own value unless it was renamed away |
| FieldNameLaws.EscapeEntriesLookup | src/workload/utilmethods.py:47-59 | after the first loop each key holds the escaped form of its value |
| FieldNameLaws.EscapeLookup | src/workload/utilmethods.py:43-71 | each result key holds the escaped value of its source key. That is the last key renamed to it, or else the key itself when it needed no fixing. No other key exists |
| FieldNameLaws.CleanKeyKept | src/workload/utilmethods.py:47-68 | a key needing no fixing that no renamed key lands on keeps its escaped value |
| FieldNameLaws.CollisionExample | src/workload/utilmethods.py:61-68 | `{"a.b": 1, "a__b": 2}` escapes so that `a__b` holds 1: the renamed key wins |
| FieldNameLaws.FixKeyExample | src/workload/utilmethods.py:65-67 | the key `a.b` is renamed to `a__b` |
| ReferencedFields.DictKeys | src/workload/utilmethods.py:84 | `keys()` succeeds iff the value is a dict, giving each of its keys |
| ReferencedFields.UnionFields | src/workload/utilmethods.py:88-91 | the union succeeds iff every element is a dict; the result holds each key of every document exactly once, with the fields gathered so far kept in front |
| ReferencedFields.AddNew | src/workload/utilmethods.py:90 | adding keys to a repeat-free list keeps it repeat-free, yields the union, and leaves the given list in front |
| ReferencedFields.UpdateFields | src/workload/utilmethods.py:87-91 | the corrected UPDATE branch: succeeds iff the content iterates to dicts only, and returns every key of every document once |
| ReferencedFields.UpdateFieldsAsWritten | src/workload/utilmethods.py:87-91 | the UPDATE branch as written succeeds only when the content iterates to nothing |
| ReferencedFields.QueryFields | src/workload/utilmethods.py:79-81 | succeeds iff the content is a dict whose query entry is a dict; gives that dict's keys |
| ReferencedFields.GetReferencedFields | src/workload/utilmethods.py:74-97 | an aggregate query or unknown kind leaves `fields` unbound. Insert, its alias and delete give the content's keys iff it is a dict. A query gives its predicate's keys. An update gives the repeat-free union of its documents' keys |
| ReferencedFields.GetReferencedFieldsAsWritten | src/workload/utilmethods.py:74-97 | agrees with the corrected function except on UPDATE, where it succeeds only for empty content |
| ReferencedFields.UpdateAsWrittenRejectsDocuments | src/workload/utilmethods.py:87-91 | for update content made of one or more dicts, the code as written fails while the corrected union succeeds |
| ReferencedFields.UpdateCounterexample | src/workload/utilmethods.py:88-90 | the update content `[{"a": 1}]` fails as written and gives `["a"]` when corrected |

## Left out

- `convertWorkload` (src/workload/utilmethods.py:15-41) and `processQueryIds` (src/workload/stats.py:89-96) read and write the database and call `OpHasher`. `OpHasher` is not part of this model.
- Database plumbing is replaced by values: `find()`, `one()`, `save()`, and the `limit(1000)` cursor, which is modelled as a prefix of the workload. Each record is saved as soon as it is done. When a later operation or collection raises, the records already saved stay changed, but the model returns only the error.
- `random.randrange` is not modelled: each row's draw is an input.
- `escapeFieldNames` shallow-copies its argument and updates the dicts inside list values in place. The caller's lists are therefore also changed. The model returns a new value and does not model this aliasing.
- Python hashing equates `1`, `1.0` and `True`. The model keeps `Int`, `Float` and `Bool` values apart when counting distinct values, so its cardinality can exceed Python's for mixed-type columns.
- Floating point: selectivity is modelled with integer division as the code computes it, and float values are only compared, never computed with.
- Python 2 dict iteration order is hash-based. The model iterates dicts in insertion order. This matters only for the order of returned key lists, for which of several keys renamed to the same name wins, and for which exception a sampled row with several bad entries raises (`ScanRow` reports the first bad entry in iteration order).
- `len(v)` on a str counts its characters; byte encodings are not modelled.
- Collection names are assumed unique among the metadata records (the catalogue is a map); `one()` raising on duplicates is not modelled.
- `src/workload/utilmethods.py` never imports `parser`, so as written every call of `getReferencedFields` raises NameError at line 79. The model assumes the constants resolve to the operation kinds: `OP_TYPE_QUERY` is `$query`, which is also the key of the query sub-document. The `parser` module is not part of this model.
- WorkloadStats.ProcessOp: reports an operation on a collection without a record as the single error `MissingCollection`. The source raises TypeError (`None['fields']`) when the operation has pairs and AttributeError (`None.save()`) when it has none.
- Exception messages are abbreviated; only the exception kind and, for KeyError, the key are modelled.

## Findings

| source | as written | input that shows it | evidently intended | confidence | as-written member | corrected member |
|---|---|---|---|---|---|---|
| src/workload/utilmethods.py:88-90 | `fields` starts as an empty set and each update document's `data.keys()` is merged into it with the in-place union operator; in Python 2 `keys()` returns a list, and a set cannot be merged in place with a list (TypeError) | an UPDATE operation with content `[{"a": 1}]` | the union of the keys of all update documents, each once (merging `set(data.keys())`) | high; not executed | ReferencedFields.GetReferencedFieldsAsWritten | ReferencedFields.GetReferencedFields |

=== FILE: dataset_stats.dfy ===
/** `StatsProcessor.processDataset` (src/workload/stats.py): count each
    collection's rows, estimate its average document size from a random
    sample of them, and derive each field's cardinality and selectivity from
    the distinct values seen in the sample.

    The random draw each row gets is an input: `DatasetRow.draw` is the value
    `random.randrange(1, 100, 1)` returned for that row. */
module DatasetStats {
  import opened Errors
  import opened Documents
  import opened Metadata

  const IdKey := "_id"
  const IdBytes := 12
  const IntBytes := 4
  const DatetimeBytes := 8
  const FloatBytes := 8

  /** A value of `random.randrange(1, 100, 1)`. */
  type Draw = d: int | 1 <= d <= 99 witness 1

  /** A row of the collection's dataset with its sampling draw. */
  datatype DatasetRow = DatasetRow(doc: Doc, draw: Draw)

  /** `to_use <= sample_rate`. Since draws run from 1 to 99, a rate of 99 or
      more samples every row and a rate below 1 samples none. */
  function Sampled(row: DatasetRow, rate: int): (b: bool)
    ensures rate >= 99 ==> b
    ensures rate < 1 ==> !b
  {
    row.draw <= rate
  }

  /** `len(v)`. */
  function Len(v: Value): Result<nat> {
    match v
    case Str(s) => Ok(|s|)
    case List(items) => Ok(|items|)
    case Dict(es) => Ok(|es|)
    case _ => Err(TypeError("object has no len()"))
  }

  /** Values that can serve as dict keys in `distinct_values`. */
  predicate Hashable(v: Value) {
    !v.List? && !v.Dict?
  }

  /** The size estimate of one value, by its field's declared type. */
  function FieldBytes(t: FieldType, v: Value): (r: Result<nat>)
    ensures r.Err? <==> t == StrType && !(v.Str? || v.List? || v.Dict?)
    ensures r.Err? ==> r.error.TypeError?
    ensures t == IntType ==> r == Ok(4)
    ensures t == DatetimeType || t == FloatType ==> r == Ok(8)
    ensures t.OtherType? ==> r == Ok(0)
    ensures t == StrType && v.Str? ==> r == Ok(|v.s|)
  {
    match t
    case IntType => Ok(IntBytes)
    case StrType => Len(v)
    case DatetimeType => Ok(DatetimeBytes)
    case FloatType => Ok(FloatBytes)
    case OtherType(_) => Ok(0)
  }

  /** An entry of a sampled row the scan accepts: the identifier, or a known
      field whose value has a size and can be hashed. */
  predicate EntryValid(fields: map<string, FieldStat>, e: Entry) {
    e.key == IdKey || (e.key in fields && FieldBytes(fields[e.key].fieldType, e.val).Ok? && Hashable(e.val))
  }

  predicate RowValid(fields: map<string, FieldStat>, doc: Doc) {
    forall i | 0 <= i < |doc| :: EntryValid(fields, doc[i])
  }

  function EntryBytes(fields: map<string, FieldStat>, e: Entry): (n: nat)
    requires EntryValid(fields, e)
    ensures e.key == IdKey ==> n == 12
    ensures e.key != IdKey ==> FieldBytes(fields[e.key].fieldType, e.val) == Ok(n)
  {
    if e.key == IdKey then IdBytes else FieldBytes(fields[e.key].fieldType, e.val).value
  }

  /** The size estimate of one row: the sum over its entries. */
  function RowBytes(fields: map<string, FieldStat>, doc: Doc): nat
    requires RowValid(fields, doc)
  {
    if doc == [] then 0 else EntryBytes(fields, doc[0]) + RowBytes(fields, doc[1..])
  }

  /** The values a row holds under field `f`; identifiers are not collected. */
  function RowValues(doc: Doc, f: string): set<Value> {
    set e | e in doc && e.key == f && f != IdKey :: e.val
  }

  /** Every sampled row is acceptable. */
  predicate SampleValid(fields: map<string, FieldStat>, rows: seq<DatasetRow>, rate: int) {
    forall i | 0 <= i < |rows| && Sampled(rows[i], rate) :: RowValid(fields, rows[i].doc)
  }

  /** The summed size estimate of the sampled rows. */
  function SampledBytes(fields: map<string, FieldStat>, rows: seq<DatasetRow>, rate: int): nat
    requires SampleValid(fields, rows, rate)
  {
    if rows == [] then 0
    else
      assert forall i | 0 <= i < |rows[1..]| :: rows[1..][i] == rows[i + 1];
      (if Sampled(rows[0], rate) then RowBytes(fields, rows[0].doc) else 0) + SampledBytes(fields, rows[1..], rate)
  }

  /** The distinct values of field `f` over the sampled rows. */
  function DistinctValues(rows: seq<DatasetRow>, rate: int, f: string): set<Value> {
    if rows == [] then {}
    else (if Sampled(rows[0], rate) then RowValues(rows[0].doc, f) else {}) + DistinctValues(rows[1..], rate, f)
  }

  /** The number of sampled rows. */
  function SampledCount(rows: seq<DatasetRow>, rate: int): (n: nat)
    ensures n <= |rows|
  {
    if rows == [] then 0 else (if Sampled(rows[0], rate) then 1 else 0) + SampledCount(rows[1..], rate)
  }

  /** What the scan has accumulated: `tuple_sizes[name]` and
      `distinct_values[name]`. */
  datatype Tally = Tally(bytes: nat, seen: map<string, set<Value>>)

  function Seen(t: Tally, f: string): set<Value> {
    if f in t.seen then t.seen[f] else {}
  }

  lemma RowValuesCons(doc: Doc)
    requires doc != []
    ensures forall f :: RowValues(doc, f) == RowValues([doc[0]], f) + RowValues(doc[1..], f)
  {
    assert doc == [doc[0]] + doc[1..];
  }

  lemma RowValidCons(fields: map<string, FieldStat>, doc: Doc)
    requires doc != []
    ensures RowValid(fields, doc) <==> EntryValid(fields, doc[0]) && RowValid(fields, doc[1..])
  {
    assert forall i | 0 <= i < |doc[1..]| :: doc[1..][i] == doc[i + 1];
  }

  /** The loop over one sampled row's entries. */
  function ScanRow(fields: map<string, FieldStat>, doc: Doc, t: Tally): (r: Result<Tally>)
    ensures r.Ok? <==> RowValid(fields, doc)
    ensures r.Ok? ==> r.value.bytes == t.bytes + RowBytes(fields, doc)
    ensures r.Ok? ==> forall f :: Seen(r.value, f) == Seen(t, f) + RowValues(doc, f)
  {
    if doc == [] then Ok(t)
    else
      var e := doc[0];
      RowValidCons(fields, doc);
      RowValuesCons(doc);
      if e.key == IdKey then
        ScanRow(fields, doc[1..], t.(bytes := t.bytes + IdBytes))
      else if e.key !in fields then
        Err(KeyError(e.key))
      else
        match FieldBytes(fields[e.key].fieldType, e.val)
        case Err(x) => Err(x)
        case Ok(n) =>
          if !Hashable(e.val) then Err(TypeError("unhashable type"))
          else ScanRow(fields, doc[1..], Tally(t.bytes + n, t.seen[e.key := Seen(t, e.key) + {e.val}]))
  }

  /** The loop over the collection's rows: every row is counted, only the
      sampled ones are scanned. */
  function ScanRows(fields: map<string, FieldStat>, rows: seq<DatasetRow>, rate: int, t: Tally): (r: Result<Tally>)
    ensures r.Ok? <==> SampleValid(fields, rows, rate)
    ensures r.Ok? ==> r.value.bytes == t.bytes + SampledBytes(fields, rows, rate)
    ensures r.Ok? ==> forall f :: Seen(r.value, f) == Seen(t, f) + DistinctValues(rows, rate, f)
  {
    if rows == [] then Ok(t)
    else
      assert forall i | 0 <= i < |rows[1..]| :: rows[1..][i] == rows[i + 1];
      if Sampled(rows[0], rate) then
        match ScanRow(fields, rows[0].doc, t)
        case Err(e) => Err(e)
        case Ok(next) => ScanRows(fields, rows[1..], rate, next)
      else ScanRows(fields, rows[1..], rate, t)
  }

  /** `processDataset` for one collection record: both passes over it. */
  function ProcessCollection(stat: CollectionStat, rows: seq<DatasetRow>, rate: int): (r: Result<CollectionStat>)
    ensures r.Ok? <==> SampleValid(stat.fields, rows, rate)
    ensures r.Ok? ==> r.value.tupleCount == |rows|
    ensures r.Ok? ==> r.value.avgDocSize == if |rows| == 0 then 0 else SampledBytes(stat.fields, rows, rate) / |rows|
    ensures r.Ok? ==> r.value.fields.Keys == stat.fields.Keys
    ensures r.Ok? ==> forall f | f in stat.fields ::
      && r.value.fields[f].fieldType == stat.fields[f].fieldType
      && r.value.fields[f].queryUseCount == stat.fields[f].queryUseCount
      && r.value.fields[f].cardinality == |DistinctValues(rows, rate, f)|
      && r.value.fields[f].selectivity == if |rows| == 0 then 0 else r.value.fields[f].cardinality / |rows|
  {
    match ScanRows(stat.fields, rows, rate, Tally(0, map[]))
    case Err(e) => Err(e)
    case Ok(t) => Ok(Summarise(stat, rows, rate, t))
  }

  /** The end of the first pass and the whole second pass, once the scan
      has succeeded: each field's cardinality is the number of distinct
      values seen, its selectivity that number divided by the row count. */
  function Summarise(stat: CollectionStat, rows: seq<DatasetRow>, rate: int, t: Tally): (r: CollectionStat)
    requires SampleValid(stat.fields, rows, rate)
    requires t.bytes == SampledBytes(stat.fields, rows, rate)
    requires forall f :: Seen(t, f) == DistinctValues(rows, rate, f)
    ensures r.tupleCount == |rows|
    ensures r.avgDocSize == if |rows| == 0 then 0 else SampledBytes(stat.fields, rows, rate) / |rows|
    ensures r.fields.Keys == stat.fields.Keys
    ensures forall f | f in stat.fields ::
      && r.fields[f].fieldType == stat.fields[f].fieldType
      && r.fields[f].queryUseCount == stat.fields[f].queryUseCount
      && r.fields[f].cardinality == |DistinctValues(rows, rate, f)|
      && r.fields[f].selectivity == if |rows| == 0 then 0 else r.fields[f].cardinality / |rows|
  {
    var n := |rows|;
    var fields := map f | f in stat.fields ::
      stat.fields[f].(cardinality := |Seen(t, f)|, selectivity := if n == 0 then 0 else |Seen(t, f)| / n);
    CollectionStat(fields, n, if n == 0 then 0 else t.bytes / n)
  }

  /** The rows `dataset_db[name].find()` returns: none for a collection the
      dataset lacks. */
  function RowsOf(dataset: map<string, seq<DatasetRow>>, name: string): seq<DatasetRow> {
    if name in dataset then dataset[name] else []
  }

  /** `StatsProcessor.processDataset`. Collection records are visited in an
      unspecified order; the first collection whose sample cannot be scanned
      ends the call with its error. */
  method ProcessDataset(cat: Catalog, dataset: map<string, seq<DatasetRow>>, sampleRate: int) returns (r: Result<Catalog>)
    ensures r.Ok? <==> forall c | c in cat :: ProcessCollection(cat[c], RowsOf(dataset, c), sampleRate).Ok?
    ensures r.Ok? ==> r.value.Keys == cat.Keys
    ensures r.Ok? ==> forall c | c in cat :: ProcessCollection(cat[c], RowsOf(dataset, c), sampleRate) == Ok(r.value[c])
    ensures r.Err? ==> exists c | c in cat :: ProcessCollection(cat[c], RowsOf(dataset, c), sampleRate) == Err(r.error)
  {
    var pending := cat.Keys;
    var done: Catalog := map[];
    while pending != {}
      invariant pending <= cat.Keys
      invariant done.Keys == cat.Keys - pending
      invariant forall c | c in done :: ProcessCollection(cat[c], RowsOf(dataset, c), sampleRate) == Ok(done[c])
      decreases pending
    {
      var c :| c in pending;
      var result := ProcessCollection(cat[c], RowsOf(dataset, c), sampleRate);
      if result.Err? {
        return Err(result.error);
      }
      done := done[c := result.value];
      pending := pending - {c};
    }
    return Ok(done);
  }
}

/** Properties of the dataset statistics. */
module DatasetLaws {
  import opened Errors
  import opened Documents
  import opened Metadata
  import opened DatasetStats

  /** Every row of the dataset is a dict, hence has unique keys. */
  predicate RowsDistinct(rows: seq<DatasetRow>) {
    forall i | 0 <= i < |rows| :: DistinctKeys(rows[i].doc)
  }

  /** The distinct values of `f` over the sampled rows, collected all at
      once instead of row by row. */
  function SampledValues(rows: seq<DatasetRow>, rate: int, f: string): set<Value> {
    set i, v | 0 <= i < |rows| && Sampled(rows[i], rate) && v in RowValues(rows[i].doc, f) :: v
  }

  lemma {:induction false} DistinctValuesAreSampledValues(rows: seq<DatasetRow>, rate: int, f: string)
    ensures DistinctValues(rows, rate, f) == SampledValues(rows, rate, f)
  {
    if rows != [] {
      var rest := rows[1..];
      DistinctValuesAreSampledValues(rest, rate, f);
      var head := if Sampled(rows[0], rate) then RowValues(rows[0].doc, f) else {};
      forall v ensures v in SampledValues(rows, rate, f) <==> v in head + SampledValues(rest, rate, f) {
        if v in SampledValues(rows, rate, f) {
          var i :| 0 <= i < |rows| && Sampled(rows[i], rate) && v in RowValues(rows[i].doc, f);
          if i > 0 {
            assert rest[i - 1] == rows[i];
          }
        }
        if v in SampledValues(rest, rate, f) {
          var i :| 0 <= i < |rest| && Sampled(rest[i], rate) && v in RowValues(rest[i].doc, f);
          assert rows[i + 1] == rest[i];
        }
      }
    }
  }

  /** A row with unique keys holds at most one value per field: the one a
      lookup finds; the identifier is never collected. */
  lemma {:induction false} RowValuesLookup(doc: Doc, f: string)
    requires DistinctKeys(doc)
    ensures RowValues(doc, f) == if f != IdKey && Lookup(doc, f).Some? then {Lookup(doc, f).value} else {}
  {
    if doc != [] {
      var rest := doc[1..];
      assert DistinctKeys(rest) by {
        forall i, j | 0 <= i < j < |rest| ensures rest[i].key != rest[j].key {
          assert rest[i] == doc[i + 1] && rest[j] == doc[j + 1];
        }
      }
      RowValuesLookup(rest, f);
      RowValuesCons(doc);
      assert RowValues([doc[0]], f) == if doc[0].key == f && f != IdKey then {doc[0].val} else {};
      if doc[0].key == f {
        assert f !in KeySet(rest) by {
          forall e | e in rest ensures e.key != f {
            var j :| 0 <= j < |rest| && rest[j] == e;
            assert doc[j + 1] == e;
          }
        }
      }
    }
  }

  /** Each sampled row contributes at most one new value per field. */
  lemma {:induction false} CardinalityBound(rows: seq<DatasetRow>, rate: int, f: string)
    requires RowsDistinct(rows)
    ensures |DistinctValues(rows, rate, f)| <= SampledCount(rows, rate)
  {
    if rows != [] {
      assert RowsDistinct(rows[1..]) by {
        forall i | 0 <= i < |rows[1..]| ensures DistinctKeys(rows[1..][i].doc) {
          assert rows[1..][i] == rows[i + 1];
        }
      }
      CardinalityBound(rows[1..], rate, f);
      if Sampled(rows[0], rate) {
        RowValuesLookup(rows[0].doc, f);
      }
    }
  }

  /** The cardinality of every field is at most the tuple count, and the
      selectivity, an integer division, is 1 exactly when every row of the
      collection was sampled and holds a different value, and 0 otherwise. */
  lemma SelectivityZeroOrOne(stat: CollectionStat, rows: seq<DatasetRow>, rate: int, f: string)
    requires RowsDistinct(rows)
    requires SampleValid(stat.fields, rows, rate)
    requires f in stat.fields
    ensures ProcessCollection(stat, rows, rate).Ok?
    ensures var s := ProcessCollection(stat, rows, rate).value;
      && s.fields[f].cardinality <= s.tupleCount
      && (s.fields[f].selectivity == 1 <==> 0 < s.tupleCount == s.fields[f].cardinality)
      && (s.fields[f].selectivity == 0 <==> s.fields[f].cardinality < s.tupleCount || s.tupleCount == 0)
  {
    CardinalityBound(rows, rate, f);
    var s := ProcessCollection(stat, rows, rate).value;
    if s.tupleCount > 0 {
      DivisionByLarger(s.fields[f].cardinality, s.tupleCount);
    }
  }

  lemma DivisionByLarger(c: nat, n: nat)
    requires 0 < n && c <= n
    ensures c / n == if c == n then 1 else 0
  {
  }

  /** With a rate of 99 or more every row is sampled. */
  lemma {:induction false} FullSample(rows: seq<DatasetRow>, rate: int, f: string)
    requires rate >= 99
    ensures SampledCount(rows, rate) == |rows|
    ensures DistinctValues(rows, rate, f) == set i, v | 0 <= i < |rows| && v in RowValues(rows[i].doc, f) :: v
  {
    if rows != [] {
      FullSample(rows[1..], rate, f);
    }
    DistinctValuesAreSampledValues(rows, rate, f);
  }

  lemma {:induction false} NothingSampled(fields: map<string, FieldStat>, rows: seq<DatasetRow>, rate: int, f: string)
    requires rate < 1
    ensures SampleValid(fields, rows, rate)
    ensures SampledBytes(fields, rows, rate) == 0
    ensures DistinctValues(rows, rate, f) == {}
  {
    if rows != [] {
      NothingSampled(fields, rows[1..], rate, f);
    }
  }

  /** With a rate below 1 no row is sampled: the scan cannot fail, every row
      is still counted, and the size, cardinality and selectivity are all 0. */
  lemma NoSample(stat: CollectionStat, rows: seq<DatasetRow>, rate: int)
    requires rate < 1
    ensures ProcessCollection(stat, rows, rate).Ok?
    ensures var s := ProcessCollection(stat, rows, rate).value;
      && s.tupleCount == |rows|
      && s.avgDocSize == 0
      && forall f | f in s.fields :: s.fields[f].cardinality == 0 && s.fields[f].selectivity == 0
  {
    forall f ensures DistinctValues(rows, rate, f) == {} {
      NothingSampled(stat.fields, rows, rate, f);
    }
    NothingSampled(stat.fields, rows, rate, "");
  }

  /** A sampled row holding a field the collection does not declare makes
      the whole computation fail. */
  lemma UnknownFieldFails(stat: CollectionStat, rows: seq<DatasetRow>, rate: int, i: nat, j: nat)
    requires i < |rows| && Sampled(rows[i], rate)
    requires j < |rows[i].doc| && rows[i].doc[j].key != IdKey && rows[i].doc[j].key !in stat.fields
    ensures ProcessCollection(stat, rows, rate).Err?
  {
    assert !EntryValid(stat.fields, rows[i].doc[j]);
  }

  /** One sampled row holding just an identifier and an int field: 16 bytes,
      cardinality 1 and, with a single row, selectivity 1. */
  lemma SingleRowExample(stat: CollectionStat, rows: seq<DatasetRow>)
    requires stat.fields.Keys == {"n"} && stat.fields["n"].fieldType == IntType
    requires rows == [DatasetRow([Entry(IdKey, Int(7)), Entry("n", Int(3))], 50)]
    ensures ProcessCollection(stat, rows, 50) == Ok(CollectionStat(
      map["n" := stat.fields["n"].(cardinality := 1, selectivity := 1)], 1, 16))
  {
    var doc := rows[0].doc;
    assert RowValid(stat.fields, doc) by {
      assert EntryValid(stat.fields, doc[0]) && EntryValid(stat.fields, doc[1]);
    }
    assert RowBytes(stat.fields, doc) == 16 by {
      var tail := doc[1..];
      assert tail == [Entry("n", Int(3))];
      assert tail[1..] == [];
      assert RowBytes(stat.fields, tail) == IntBytes + RowBytes(stat.fields, tail[1..]);
    }
    assert SampleValid(stat.fields, rows, 50);
    assert RowValues(doc, "n") == {Int(3)} by {
      RowValuesLookup(doc, "n");
    }
    assert DistinctValues(rows, 50, "n") == {Int(3)} by {
      assert rows[1..] == [];
    }
    var r := ProcessCollection(stat, rows, 50).value;
    assert r.fields == map["n" := stat.fields["n"].(cardinality := 1, selectivity := 1)];
  }
}

=== FILE: documents.dfy ===
/** The document values that flow through the workload trace and the sampled
    dataset: Python/BSON scalars, lists and dicts.

    A dict is an association list of entries in its iteration order. Python
    dict keys are unique, which is the predicate `DistinctKeys`; `WellFormed`
    says it of every dict nested anywhere in a value. */
module Documents {
  import opened Errors

  datatype Value =
    | Null
    | Bool(b: bool)
    | Int(i: int)
    | Float(x: real)
    | Str(s: string)
    | Datetime(micros: int)
    | List(items: seq<Value>)
    | Dict(entries: seq<Entry>)

  datatype Entry = Entry(key: string, val: Value)

  type Doc = seq<Entry>

  /** The keys of a dict, in iteration order (Python 2 `d.keys()`). */
  function Keys(d: Doc): (ks: seq<string>)
    ensures |ks| == |d|
    ensures forall i | 0 <= i < |d| :: ks[i] == d[i].key
    ensures Elems(ks) == KeySet(d)
    ensures DistinctKeys(d) ==> Distinct(ks)
  {
    if d == [] then []
    else
      var ks := [d[0].key] + Keys(d[1..]);
      forall k | k in KeySet(d) ensures k in ks {
        var e :| e in d && e.key == k;
        var i :| 0 <= i < |d| && d[i] == e;
        assert ks[i] == k;
      }
      ks
  }

  function KeySet(d: Doc): set<string> {
    set e | e in d :: e.key
  }

  function ValueSet(d: Doc): set<Value> {
    set e | e in d :: e.val
  }

  /** The strings of a list, as a set. */
  function Elems(ks: seq<string>): set<string> {
    set k | k in ks
  }

  predicate DistinctKeys(d: Doc) {
    forall i, j | 0 <= i < j < |d| :: d[i].key != d[j].key
  }

  predicate Distinct(ks: seq<string>) {
    forall i, j | 0 <= i < j < |ks| :: ks[i] != ks[j]
  }

  /** Every dict reachable in `v` has unique keys, as every Python dict does. */
  predicate WellFormed(v: Value) {
    match v
    case Dict(es) => WellFormedDoc(es)
    case List(items) => forall i | 0 <= i < |items| :: WellFormed(items[i])
    case _ => true
  }

  predicate WellFormedDoc(d: Doc) {
    DistinctKeys(d) && forall i | 0 <= i < |d| :: WellFormed(d[i].val)
  }

  /** `d.get(k)`: the value stored under `k`, if any. */
  function Lookup(d: Doc, k: string): (r: Option<Value>)
    ensures r.Some? <==> k in KeySet(d)
    ensures r.Some? ==> r.value in ValueSet(d)
    ensures r.Some? ==> Entry(k, r.value) in d
  {
    if d == [] then None
    else if d[0].key == k then Some(d[0].val)
    else
      var r := Lookup(d[1..], k);
      assert KeySet(d) == {d[0].key} + KeySet(d[1..]);
      assert ValueSet(d[1..]) <= ValueSet(d);
      r
  }

  /** The parts of a well-formed value are well formed. */
  lemma DictWellFormed(doc: Value)
    requires doc.Dict?
    ensures WellFormed(doc) ==> DistinctKeys(doc.entries)
  {
    match doc
    case Dict(es) =>
      assert WellFormed(doc) ==> WellFormedDoc(es);
  }

  lemma LookupWellFormed(d: Doc, k: string)
    requires Lookup(d, k).Some?
    ensures WellFormedDoc(d) ==> WellFormed(Lookup(d, k).value)
  {
    if d[0].key != k {
      LookupWellFormed(d[1..], k);
    }
  }

  lemma ListWellFormed(v: Value)
    requires v.List? && WellFormed(v)
    ensures forall i | 0 <= i < |v.items| :: WellFormed(v.items[i])
  {
  }

  /** `del d[k]`: drop the entry stored under `k`. */
  function Delete(d: Doc, k: string): (r: Doc)
    ensures KeySet(r) == KeySet(d) - {k}
    ensures ValueSet(r) <= ValueSet(d)
    ensures DistinctKeys(d) ==> DistinctKeys(r)
    ensures |r| <= |d|
    ensures k in KeySet(d) ==> |r| < |d|
  {
    if d == [] then []
    else
      var rest := Delete(d[1..], k);
      Split(d);
      if d[0].key == k then rest
      else
        var r := [d[0]] + rest;
        assert r[1..] == rest;
        Split(r);
        TailDistinct(d);
        ConsDistinct(r);
        r
  }

  /** After `del d[k]`, `k` is gone and every other key is unchanged. */
  lemma {:induction false} DeleteLookup(d: Doc, k: string, key: string)
    ensures Lookup(Delete(d, k), key) == if key == k then None else Lookup(d, key)
  {
    if d != [] {
      DeleteLookup(d[1..], k, key);
      if d[0].key != k {
        assert ([d[0]] + Delete(d[1..], k))[1..] == Delete(d[1..], k);
      }
    }
  }

  /** A dict's keys and values are those of its first entry and the rest. */
  lemma Split(d: Doc)
    requires d != []
    ensures KeySet(d) == {d[0].key} + KeySet(d[1..])
    ensures ValueSet(d) == {d[0].val} + ValueSet(d[1..])
  {
    assert d == [d[0]] + d[1..];
  }

  lemma TailDistinct(d: Doc)
    requires d != []
    ensures DistinctKeys(d) ==> DistinctKeys(d[1..]) && d[0].key !in KeySet(d[1..])
  {
    if DistinctKeys(d) {
      forall e | e in d[1..] ensures e.key != d[0].key {
        var j :| 0 <= j < |d[1..]| && d[1..][j] == e;
        assert d[j + 1] == e;
      }
    }
  }

  lemma ConsDistinct(r: Doc)
    requires r != []
    ensures DistinctKeys(r[1..]) && r[0].key !in KeySet(r[1..]) ==> DistinctKeys(r)
  {
    if DistinctKeys(r[1..]) && r[0].key !in KeySet(r[1..]) {
      ConsDistinctStep(r);
    }
  }

  lemma ConsDistinctStep(r: Doc)
    requires r != [] && DistinctKeys(r[1..]) && r[0].key !in KeySet(r[1..])
    ensures DistinctKeys(r)
  {
    forall i, j | 0 <= i < j < |r| ensures r[i].key != r[j].key {
      assert r[j] == r[1..][j - 1];
      if 0 < i {
        assert r[i] == r[1..][i - 1];
      }
    }
  }

  /** Overwrite the value of an existing key in place. */
  function Replace(d: Doc, k: string, v: Value): (r: Doc)
    ensures |r| == |d|
    ensures forall i | 0 <= i < |d| :: r[i].key == d[i].key
    ensures KeySet(r) == KeySet(d)
    ensures ValueSet(r) <= ValueSet(d) + {v}
  {
    if d == [] then []
    else
      var rest := Replace(d[1..], k, v);
      var r := [Entry(d[0].key, if d[0].key == k then v else d[0].val)] + rest;
      assert r[1..] == rest;
      Split(r);
      Split(d);
      r
  }

  /** `d[k] = v`: overwrite `k` if present, otherwise add it. */
  function Put(d: Doc, k: string, v: Value): (r: Doc)
    ensures KeySet(r) == KeySet(d) + {k}
    ensures ValueSet(r) <= ValueSet(d) + {v}
    ensures forall key :: Lookup(r, key) == if key == k then Some(v) else Lookup(d, key)
    ensures DistinctKeys(d) ==> DistinctKeys(r)
    ensures |r| <= |d| + 1
  {
    if k in KeySet(d) then
      var r := Replace(d, k, v);
      forall key ensures Lookup(r, key) == if key == k then Some(v) else Lookup(d, key) {
        ReplaceLookup(d, k, v, key);
      }
      r
    else
      var r := d + [Entry(k, v)];
      AppendLookup(d, Entry(k, v));
      assert KeySet(r) == KeySet(d) + {k};
      assert ValueSet(r) == ValueSet(d) + {v};
      r
  }

  lemma ReplaceLookup(d: Doc, k: string, v: Value, key: string)
    requires k in KeySet(d)
    ensures Lookup(Replace(d, k, v), key) == if key == k then Some(v) else Lookup(d, key)
  {
    assert d != [];
    assert KeySet(d) == {d[0].key} + KeySet(d[1..]);
    var r := Replace(d, k, v);
    assert r[1..] == Replace(d[1..], k, v);
    if d[0].key != key && d[0].key != k {
      ReplaceLookup(d[1..], k, v, key);
    } else if d[0].key != key {
      if k in KeySet(d[1..]) {
        ReplaceLookup(d[1..], k, v, key);
      } else {
        ReplaceAbsent(d[1..], k, v);
      }
    }
  }

  lemma ReplaceAbsent(d: Doc, k: string, v: Value)
    requires k !in KeySet(d)
    ensures Replace(d, k, v) == d
  {
    if d != [] {
      assert KeySet(d) == {d[0].key} + KeySet(d[1..]);
      ReplaceAbsent(d[1..], k, v);
    }
  }

  lemma AppendLookup(d: Doc, e: Entry)
    requires e.key !in KeySet(d)
    ensures forall key :: Lookup(d + [e], key) == if key == e.key then Some(e.val) else Lookup(d, key)
  {
    if d != [] {
      assert KeySet(d) == {d[0].key} + KeySet(d[1..]);
      assert (d + [e])[1..] == d[1..] + [e];
      AppendLookup(d[1..], e);
    }
  }

  /** What `for x in v` yields: the items of a list, the keys of a dict, the
      one-character strings of a string; other values are not iterable. */
  function Iterate(v: Value): (r: Option<seq<Value>>)
    ensures r.Some? <==> (v.List? || v.Dict? || v.Str?)
    ensures v.List? ==> r == Some(v.items)
    ensures v.Dict? ==> |r.value| == |v.entries| && forall i | 0 <= i < |v.entries| :: r.value[i] == Str(v.entries[i].key)
    ensures v.Str? ==> |r.value| == |v.s| && forall i | 0 <= i < |v.s| :: r.value[i] == Str([v.s[i]])
  {
    match v
    case List(items) => Some(items)
    case Dict(es) => Some(seq(|es|, i requires 0 <= i < |es| => Str(es[i].key)))
    case Str(s) => Some(seq(|s|, i requires 0 <= i < |s| => Str([s[i]])))
    case _ => None
  }
}

=== FILE: errors.dfy ===
/** Failure-carrying results for the statistics and field-name code.
    The Python code raises exceptions; here each raise becomes an `Err`
    naming the exception the interpreter would have raised. */
module Errors {

  datatype Option<+T> = None | Some(value: T)

  /** The exceptions the modelled code can raise. */
  datatype Exception =
    | KeyError(key: string)          // a dict subscript with a missing key
    | TypeError(reason: string)      // unsubscriptable, unhashable, unsized or not iterable value
    | AttributeError(attribute: string) // `.iteritems()` / `.keys()` on a value that is not a dict
    | UnboundLocal(name: string)     // a local read before any branch assigned it
    | MissingCollection(name: string) // an operation on a collection with no metadata record

  datatype Result<+T> = Ok(value: T) | Err(error: Exception)
}

=== FILE: escape.dfy ===
/** `escapeFieldNames` (src/workload/utilmethods.py): rewrite dict keys so
    MongoDB can store them. A key may not start with `$` and may not contain
    `.`; such a key gets a `\` prefix when it starts with `$`, and every `.`
    becomes `__`. The rewrite reaches nested dicts and dicts that sit directly
    inside a list, and nothing else. */
module FieldNames {
  import opened Errors
  import opened Documents

  predicate StartsWithDollar(k: string) {
    |k| > 0 && k[0] == '$'
  }

  /** The keys MongoDB refuses, and so the keys the function rewrites. */
  predicate NeedsFix(k: string) {
    StartsWithDollar(k) || '.' in k
  }

  /** `s.count(".")`. */
  function DotCount(s: string): nat {
    if s == [] then 0 else (if s[0] == '.' then 1 else 0) + DotCount(s[1..])
  }

  /** `s.replace(".", "__")`. */
  function ReplaceDots(s: string): (r: string)
    ensures '.' !in r
    ensures '.' !in s ==> r == s
    ensures |r| == |s| + DotCount(s)
    ensures |s| > 0 ==> |r| > 0 && r[0] == if s[0] == '.' then '_' else s[0]
  {
    if s == [] then []
    else
      assert s == [s[0]] + s[1..];
      (if s[0] == '.' then "__" else [s[0]]) + ReplaceDots(s[1..])
  }

  /** `s.split(".")`: the maximal dot-free pieces between the dots. */
  function SplitDots(s: string): (parts: seq<string>)
    ensures |parts| == DotCount(s) + 1
    ensures forall i | 0 <= i < |parts| :: '.' !in parts[i]
    ensures Join(parts, ".") == s
  {
    if s == [] then [""]
    else
      assert s == [s[0]] + s[1..];
      var rest := SplitDots(s[1..]);
      if s[0] == '.' then
        var parts := [""] + rest;
        assert parts[1..] == rest;
        parts
      else
        var parts := [[s[0]] + rest[0]] + rest[1..];
        assert parts[1..] == rest[1..];
        assert |rest| > 1 ==> Join(rest, ".") == rest[0] + "." + Join(rest[1..], ".");
        parts
  }

  /** `sep.join(parts)`. */
  function Join(parts: seq<string>, sep: string): string
    requires |parts| > 0
  {
    if |parts| == 1 then parts[0] else parts[0] + sep + Join(parts[1..], sep)
  }

  /** For a non-empty old text, `s.replace(old, new)` equals
      `new.join(s.split(old))`; `ReplaceDots` agrees with that reference
      reading. */
  lemma {:induction false} ReplaceDotsIsSplitJoin(s: string)
    ensures ReplaceDots(s) == Join(SplitDots(s), "__")
  {
    if s != [] {
      ReplaceDotsIsSplitJoin(s[1..]);
      var rest := SplitDots(s[1..]);
      var parts := SplitDots(s);
      assert ReplaceDots(s) == (if s[0] == '.' then "__" else [s[0]]) + ReplaceDots(s[1..]);
      if s[0] == '.' {
        assert parts == [""] + rest;
        JoinFront("", "__", rest);
      } else {
        assert parts == [[s[0]] + rest[0]] + rest[1..];
        JoinPrefix([s[0]], "__", rest);
      }
    }
  }

  /** Joining behind a leading empty piece starts with the separator. */
  lemma JoinFront(p: string, sep: string, parts: seq<string>)
    requires |parts| > 0
    ensures Join([p] + parts, sep) == p + sep + Join(parts, sep)
  {
    assert ([p] + parts)[1..] == parts;
  }

  /** Text put in front of the first piece comes first in the join. */
  lemma JoinPrefix(c: string, sep: string, parts: seq<string>)
    requires |parts| > 0
    ensures Join([c + parts[0]] + parts[1..], sep) == c + Join(parts, sep)
  {
    var q := [c + parts[0]] + parts[1..];
    if |parts| > 1 {
      assert q[1..] == parts[1..];
      assert Join(q, sep) == (c + parts[0]) + sep + Join(parts[1..], sep);
    }
  }

  /** The new name of a key that needs fixing. */
  function FixKey(k: string): (r: string)
    ensures !NeedsFix(r)
    ensures !NeedsFix(k) ==> r == k
    ensures StartsWithDollar(k) ==> |r| > 0 && r[0] == '\\'
    ensures StartsWithDollar(k) ==> r == "\\" + ReplaceDots(k)
    ensures !StartsWithDollar(k) ==> r == ReplaceDots(k)
    ensures |r| == |k| + DotCount(k) + if StartsWithDollar(k) then 1 else 0
  {
    var prefixed := if StartsWithDollar(k) then ['\\'] + k else k;
    assert StartsWithDollar(k) ==> prefixed[1..] == k;
    ReplaceDots(prefixed)
  }

  /** No key reached by the rewrite needs fixing: the keys of `d`, the keys of
      its dict values and of the dicts directly inside its list values, and so
      on down. Lists nested in lists are not reached. */
  predicate EscapedDoc(d: Doc) {
    forall i | 0 <= i < |d| :: !NeedsFix(d[i].key) && EscapedValue(d[i].val)
  }

  predicate EscapedValue(v: Value) {
    match v
    case Dict(es) => EscapedDoc(es)
    case List(items) => forall j | 0 <= j < |items| :: EscapedItem(items[j])
    case _ => true
  }

  predicate EscapedItem(v: Value) {
    v.Dict? ==> EscapedDoc(v.entries)
  }

  /** The keys of `d` that need fixing, in iteration order (`toFix`). */
  function ToFix(d: Doc): (ks: seq<string>)
    ensures forall i | 0 <= i < |ks| :: NeedsFix(ks[i]) && ks[i] in KeySet(d)
    ensures forall k | k in KeySet(d) && NeedsFix(k) :: k in ks
    ensures DistinctKeys(d) ==> Distinct(ks)
  {
    if d == [] then []
    else
      var rest := ToFix(d[1..]);
      Split(d);
      TailDistinct(d);
      (if NeedsFix(d[0].key) then [d[0].key] else []) + rest
  }

  /** The last key in `toFix` whose new name is `key`: the one whose value
      ends up stored under `key` when several fixed keys collide. */
  function LastFixer(toFix: seq<string>, key: string): (r: Option<string>)
    ensures r.Some? ==> r.value in toFix && FixKey(r.value) == key
    ensures r.None? ==> forall k | k in toFix :: FixKey(k) != key
    ensures r.Some? ==> exists i | 0 <= i < |toFix| ::
      toFix[i] == r.value && forall j | i < j < |toFix| :: FixKey(toFix[j]) != key
  {
    if toFix == [] then None
    else
      var tail := toFix[1..];
      assert forall j | 0 <= j < |tail| :: tail[j] == toFix[j + 1];
      match LastFixer(tail, key)
      case Some(k) =>
        var i :| 0 <= i < |tail| && tail[i] == k && forall j | i < j < |tail| :: FixKey(tail[j]) != key;
        assert toFix[i + 1] == k;
        Some(k)
      case None =>
        if FixKey(toFix[0]) == key then
          assert forall j | 0 < j < |toFix| :: toFix[j] in tail;
          Some(toFix[0])
        else None
  }

  /** The new names of the keys in `ks`. */
  function Renamed(ks: seq<string>): set<string> {
    set k | k in ks :: FixKey(k)
  }

  lemma ElemsCons(ks: seq<string>)
    requires |ks| > 0
    ensures Elems(ks) == {ks[0]} + Elems(ks[1..])
    ensures Renamed(ks) == {FixKey(ks[0])} + Renamed(ks[1..])
  {
    assert ks == [ks[0]] + ks[1..];
  }

  /** The second loop of the function: for each key to fix, take its value,
      delete it, and store the value under the key's new name. */
  function FixKeys(copy: Doc, toFix: seq<string>): (r: Doc)
    requires DistinctKeys(copy) && Distinct(toFix)
    requires forall i | 0 <= i < |toFix| :: NeedsFix(toFix[i]) && toFix[i] in KeySet(copy)
    ensures DistinctKeys(r)
    ensures |r| <= |copy|
    ensures ValueSet(r) <= ValueSet(copy)
    ensures KeySet(r) == (KeySet(copy) - Elems(toFix)) + Renamed(toFix)
    decreases |toFix|
  {
    if toFix == [] then copy
    else
      var k := toFix[0];
      var tail := toFix[1..];
      var next := FixOne(copy, k);
      assert forall i | 0 <= i < |tail| :: tail[i] == toFix[i + 1];
      assert forall i | 0 <= i < |tail| :: NeedsFix(tail[i]) && tail[i] in KeySet(next);
      var r := FixKeys(next, tail);
      FixKeysStep(copy, next, toFix, KeySet(r));
      r
  }

  lemma FixKeysStep(copy: Doc, next: Doc, toFix: seq<string>, ks: set<string>)
    requires |toFix| > 0 && Distinct(toFix)
    requires forall i | 0 <= i < |toFix| :: NeedsFix(toFix[i])
    requires KeySet(next) == KeySet(copy) - {toFix[0]} + {FixKey(toFix[0])}
    requires ks == (KeySet(next) - Elems(toFix[1..])) + Renamed(toFix[1..])
    ensures ks == (KeySet(copy) - Elems(toFix)) + Renamed(toFix)
  {
    ElemsCons(toFix);
    assert toFix[0] !in Elems(toFix[1..]) by {
      forall i | 1 <= i < |toFix| ensures toFix[i] != toFix[0] { }
    }
    assert FixKey(toFix[0]) !in Elems(toFix[1..]);
  }

  /** One iteration of the second loop. */
  function FixOne(copy: Doc, k: string): (next: Doc)
    requires DistinctKeys(copy) && k in KeySet(copy)
    ensures DistinctKeys(next)
    ensures |next| <= |copy|
    ensures ValueSet(next) <= ValueSet(copy)
    ensures KeySet(next) == KeySet(copy) - {k} + {FixKey(k)}
  {
    var v := Lookup(copy, k).value;
    Put(Delete(copy, k), FixKey(k), v)
  }

  lemma FixOneLookup(copy: Doc, k: string, key: string)
    requires DistinctKeys(copy) && k in KeySet(copy)
    ensures Lookup(FixOne(copy, k), key) ==
      if key == FixKey(k) then Lookup(copy, k) else if key == k then None else Lookup(copy, key)
  {
    DeleteLookup(copy, k, key);
  }

  /** A dict whose keys need no fixing and whose values are escaped and
      well formed is escaped and well formed. */
  lemma EscapedFromParts(r: Doc, values: set<Value>)
    requires DistinctKeys(r) && ValueSet(r) <= values
    requires forall v | v in values :: EscapedValue(v) && WellFormed(v)
    requires forall k | k in KeySet(r) :: !NeedsFix(k)
    ensures EscapedDoc(r) && WellFormedDoc(r)
  {
    forall i | 0 <= i < |r| ensures !NeedsFix(r[i].key) && EscapedValue(r[i].val) && WellFormed(r[i].val) {
      assert r[i] in r;
    }
  }

  lemma EscapedKeys(d: Doc, toFix: seq<string>, ks: set<string>)
    requires forall i | 0 <= i < |toFix| :: NeedsFix(toFix[i]) && toFix[i] in KeySet(d)
    requires forall k | k in KeySet(d) && NeedsFix(k) :: k in toFix
    requires ks == (KeySet(d) - Elems(toFix)) + Renamed(toFix)
    ensures ks == (set k | k in KeySet(d) && !NeedsFix(k)) + set k | k in KeySet(d) && NeedsFix(k) :: FixKey(k)
    ensures forall k | k in ks :: !NeedsFix(k)
  {
    assert Elems(toFix) == set k | k in KeySet(d) && NeedsFix(k);
  }

  /** `escapeFieldNames(content)`. */
  function EscapeFieldNames(d: Doc): (r: Doc)
    requires WellFormedDoc(d)
    ensures WellFormedDoc(r)
    ensures EscapedDoc(r)
    ensures |r| <= |d|
    ensures KeySet(r) == (set k | k in KeySet(d) && !NeedsFix(k)) + set k | k in KeySet(d) && NeedsFix(k) :: FixKey(k)
    decreases d, 1
  {
    var copy := EscapeEntries(d);
    var toFix := ToFix(d);
    var r := FixKeys(copy, toFix);
    EscapedKeys(d, toFix, KeySet(r));
    EscapedFromParts(r, ValueSet(copy));
    r
  }

  /** The first loop: keep every key, escape every value. */
  function EscapeEntries(d: Doc): (r: Doc)
    requires WellFormedDoc(d)
    ensures |r| == |d|
    ensures forall i | 0 <= i < |d| :: r[i].key == d[i].key && r[i].val == EscapeValue(d[i].val)
    ensures KeySet(r) == KeySet(d)
    ensures DistinctKeys(r)
    ensures forall v | v in ValueSet(r) :: EscapedValue(v) && WellFormed(v)
    decreases d, 0
  {
    if d == [] then []
    else
      var rest := EscapeEntries(d[1..]);
      var r := [Entry(d[0].key, EscapeValue(d[0].val))] + rest;
      assert r[1..] == rest;
      Split(r);
      Split(d);
      TailDistinct(d);
      ConsDistinct(r);
      r
  }

  /** One value of the dict: dicts are escaped, lists have their dict
      elements escaped, everything else is kept. */
  function EscapeValue(v: Value): (r: Value)
    requires WellFormed(v)
    ensures WellFormed(r) && EscapedValue(r)
    ensures !v.List? && !v.Dict? ==> r == v
    ensures v.List? ==> r.List? && |r.items| == |v.items|
    ensures v.List? ==> forall j | 0 <= j < |v.items| :: !v.items[j].Dict? ==> r.items[j] == v.items[j]
    ensures v.Dict? ==> r.Dict?
    ensures v.Dict? ==> r == Dict(EscapeFieldNames(v.entries))
    decreases v, 0
  {
    match v
    case Dict(es) => Dict(EscapeFieldNames(es))
    case List(items) => List(EscapeItems(items))
    case _ => v
  }

  /** The elements of a list value: only dicts are escaped. */
  function EscapeItems(items: seq<Value>): (r: seq<Value>)
    requires forall j | 0 <= j < |items| :: WellFormed(items[j])
    ensures |r| == |items|
    ensures forall j | 0 <= j < |items| :: WellFormed(r[j]) && EscapedItem(r[j])
    ensures forall j | 0 <= j < |items| :: r[j] == if items[j].Dict? then EscapeValue(items[j]) else items[j]
    decreases items, 0
  {
    if items == [] then []
    else
      var rest := EscapeItems(items[1..]);
      var r := [EscapeItem(items[0])] + rest;
      assert forall j | 0 < j < |items| :: items[j] == items[1..][j - 1] && r[j] == rest[j - 1];
      r
  }

  /** One element of a list value. */
  function EscapeItem(v: Value): (r: Value)
    requires WellFormed(v)
    ensures WellFormed(r) && EscapedItem(r)
    ensures r == if v.Dict? then EscapeValue(v) else v
    decreases v, 1
  {
    if v.Dict? then EscapeValue(v) else v
  }
}

/** What `escapeFieldNames` promises about its result, proved against the
    definitions in `FieldNames`. */
module FieldNameLaws {
  import opened Errors
  import opened Documents
  import opened FieldNames

  lemma {:induction false} NoKeyToFix(d: Doc)
    requires forall i | 0 <= i < |d| :: !NeedsFix(d[i].key)
    ensures ToFix(d) == []
  {
    if d != [] {
      NoKeyToFix(d[1..]);
    }
  }

  /** An escaped dict is left as it is. */
  lemma {:induction false} EscapedDocFixed(d: Doc)
    requires WellFormedDoc(d) && EscapedDoc(d)
    ensures EscapeFieldNames(d) == d
    decreases d, 1
  {
    NoKeyToFix(d);
    EscapedEntriesFixed(d);
  }

  lemma {:induction false} EscapedEntriesFixed(d: Doc)
    requires WellFormedDoc(d) && EscapedDoc(d)
    ensures EscapeEntries(d) == d
    decreases d, 0
  {
    var r := EscapeEntries(d);
    forall i | 0 <= i < |d| ensures r[i] == d[i] {
      EscapedValueFixed(d[i].val);
    }
  }

  lemma {:induction false} EscapedValueFixed(v: Value)
    requires WellFormed(v) && EscapedValue(v)
    ensures EscapeValue(v) == v
    decreases v, 0
  {
    match v
    case Dict(es) => EscapedDocFixed(es);
    case List(items) =>
      var r := EscapeItems(items);
      forall j | 0 <= j < |items| ensures r[j] == items[j] {
        if items[j].Dict? {
          EscapedValueFixed(items[j]);
        }
      }
    case _ =>
  }

  /** Escaping twice is escaping once. */
  lemma EscapeIdempotent(d: Doc)
    requires WellFormedDoc(d)
    ensures EscapeFieldNames(EscapeFieldNames(d)) == EscapeFieldNames(d)
  {
    EscapedDocFixed(EscapeFieldNames(d));
  }

  /** A dict comes back unchanged exactly when no key the function reaches
      needs fixing. */
  lemma EscapeUnchangedIff(d: Doc)
    requires WellFormedDoc(d)
    ensures EscapeFieldNames(d) == d <==> EscapedDoc(d)
  {
    if EscapedDoc(d) {
      EscapedDocFixed(d);
    }
  }

  lemma {:induction false} FixKeysLookup(copy: Doc, toFix: seq<string>, key: string)
    requires DistinctKeys(copy) && Distinct(toFix)
    requires forall i | 0 <= i < |toFix| :: NeedsFix(toFix[i]) && toFix[i] in KeySet(copy)
    ensures Lookup(FixKeys(copy, toFix), key) ==
      match LastFixer(toFix, key)
      case Some(k) => Lookup(copy, k)
      case None => if key in toFix then None else Lookup(copy, key)
    decreases |toFix|
  {
    if toFix != [] {
      var k := toFix[0];
      var tail := toFix[1..];
      var next := FixOne(copy, k);
      assert forall i | 0 <= i < |tail| :: tail[i] == toFix[i + 1];
      FixKeysLookup(next, tail, key);
      match LastFixer(tail, key)
      case Some(f) =>
        assert LastFixer(toFix, key) == Some(f);
        FixOneLookup(copy, k, f);
      case None =>
        assert key in toFix <==> key == k || key in tail;
        FixOneLookup(copy, k, key);
    }
  }

  lemma {:induction false} EscapeEntriesLookup(d: Doc, key: string)
    requires WellFormedDoc(d)
    ensures Lookup(EscapeEntries(d), key).Some? == Lookup(d, key).Some?
    ensures Lookup(d, key).Some? ==> WellFormed(Lookup(d, key).value)
    ensures Lookup(d, key).Some? ==> Lookup(EscapeEntries(d), key).value == EscapeValue(Lookup(d, key).value)
  {
    if d != [] {
      var r := EscapeEntries(d);
      assert r[1..] == EscapeEntries(d[1..]);
      EscapeEntriesLookup(d[1..], key);
    }
  }

  /** The key of the input whose (escaped) value `escapeFieldNames(d)` stores
      under `key`: the last key in iteration order that is renamed to `key`,
      otherwise `key` itself when it needed no fixing. */
  function SourceKey(d: Doc, key: string): (r: Option<string>)
  {
    match LastFixer(ToFix(d), key)
    case Some(k) => Some(k)
    case None => if !NeedsFix(key) && key in KeySet(d) then Some(key) else None
  }

  /** The escaped value stored under key `k` of `d`. */
  function EscapedValueOf(d: Doc, k: string): Value
    requires WellFormedDoc(d) && k in KeySet(d)
  {
    EscapeEntriesLookup(d, k);
    EscapeValue(Lookup(d, k).value)
  }

  /** Every key of the result, and what it holds: a renamed key holds the
      escaped value of the last key renamed to it, even when a key of that
      name was already present; a key that needed no fixing keeps its escaped
      value unless a renamed key took its place; no other key exists. */
  lemma EscapeLookup(d: Doc, key: string)
    requires WellFormedDoc(d)
    ensures SourceKey(d, key).Some? ==> SourceKey(d, key).value in KeySet(d)
    ensures Lookup(EscapeFieldNames(d), key) ==
      match SourceKey(d, key)
      case None => None
      case Some(k) => Some(EscapedValueOf(d, k))
  {
    var toFix := ToFix(d);
    FixKeysLookup(EscapeEntries(d), toFix, key);
    match LastFixer(toFix, key)
    case Some(k) =>
      EscapeEntriesLookup(d, k);
    case None =>
      EscapeEntriesLookup(d, key);
  }

  /** Keys that need no fixing keep their place and their (escaped) value
      when no renamed key lands on them. */
  lemma CleanKeyKept(d: Doc, key: string)
    requires WellFormedDoc(d) && key in KeySet(d) && !NeedsFix(key)
    requires forall k | k in KeySet(d) && NeedsFix(k) :: FixKey(k) != key
    ensures Lookup(EscapeFieldNames(d), key) == Some(EscapedValueOf(d, key))
  {
    EscapeLookup(d, key);
  }

  /** `{"a.b": 1, "a__b": 2}` escapes to `{"a__b": 1}`: the renamed key wins. */
  lemma CollisionExample(d: Doc)
    requires d == [Entry("a.b", Int(1)), Entry("a__b", Int(2))]
    ensures Lookup(EscapeFieldNames(d), "a__b") == Some(Int(1))
  {
    CollisionSource(d);
    assert Lookup(d, "a.b") == Some(Int(1));
    EscapeLookup(d, "a__b");
  }

  lemma CollisionSource(d: Doc)
    requires d == [Entry("a.b", Int(1)), Entry("a__b", Int(2))]
    ensures WellFormedDoc(d)
    ensures SourceKey(d, "a__b") == Some("a.b")
  {
    CollisionToFix(d);
    FixKeyExample();
    assert LastFixer(["a.b"], "a__b") == Some("a.b") by {
      assert LastFixer([], "a__b") == None;
    }
  }

  lemma CollisionToFix(d: Doc)
    requires d == [Entry("a.b", Int(1)), Entry("a__b", Int(2))]
    ensures WellFormedDoc(d)
    ensures ToFix(d) == ["a.b"]
  {
    assert '.' in "a.b";
    assert !NeedsFix("a__b") by {
      assert "a__b"[0] != '$';
      assert forall i | 0 <= i < 4 :: "a__b"[i] != '.';
    }
    var tail := d[1..];
    assert tail[1..] == [] && ToFix(tail[1..]) == [];
    assert ToFix(tail) == [];
    assert ToFix(d) == [d[0].key] + ToFix(tail);
  }

  lemma FixKeyExample()
    ensures FixKey("a.b") == "a__b"
  {
    assert ReplaceDots("b") == "b";
    assert ReplaceDots(".b") == "__b";
  }
}

=== FILE: metadata.dfy ===
/** The per-collection metadata records the statistics code reads and
    rewrites (`metadata_db.Collection`), and `StatsProcessor.reset`. */
module Metadata {

  /** The declared type of a field; only the four named kinds carry a size.
      `OtherType` holds only a type name that none of the other kinds stands
      for (never `int`, `str`, `datetime` or `float`). */
  datatype FieldType = IntType | StrType | DatetimeType | FloatType | OtherType(name: string)

  /** One entry of a collection's `fields` map. */
  datatype FieldStat = FieldStat(fieldType: FieldType, queryUseCount: nat, cardinality: nat, selectivity: nat)

  /** One collection record: its fields and the dataset-derived figures. */
  datatype CollectionStat = CollectionStat(fields: map<string, FieldStat>, tupleCount: nat, avgDocSize: nat)

  /** All collection records, by collection name. */
  type Catalog = map<string, CollectionStat>

  predicate Cleared(s: FieldStat) {
    s.queryUseCount == 0 && s.cardinality == 0 && s.selectivity == 0
  }

  /** `reset` applied to one collection's fields. */
  function ResetFields(fields: map<string, FieldStat>): (r: map<string, FieldStat>)
    ensures r.Keys == fields.Keys
    ensures forall f | f in fields :: Cleared(r[f]) && r[f].fieldType == fields[f].fieldType
  {
    map f | f in fields :: fields[f].(queryUseCount := 0, cardinality := 0, selectivity := 0)
  }

  /** `StatsProcessor.reset`: zero the three counters of every field of
      every collection and touch nothing else. */
  function Reset(cat: Catalog): (r: Catalog)
    ensures r.Keys == cat.Keys
    ensures forall c | c in cat ::
      r[c].fields.Keys == cat[c].fields.Keys &&
      r[c].tupleCount == cat[c].tupleCount && r[c].avgDocSize == cat[c].avgDocSize
    ensures forall c, f | c in cat && f in cat[c].fields ::
      Cleared(r[c].fields[f]) && r[c].fields[f].fieldType == cat[c].fields[f].fieldType
  {
    map c | c in cat :: cat[c].(fields := ResetFields(cat[c].fields))
  }

  /** Resetting a reset catalog changes nothing. */
  lemma ResetIdempotent(cat: Catalog)
    ensures Reset(Reset(cat)) == Reset(cat)
  {
    var once := Reset(cat);
    forall c | c in once ensures Reset(once)[c] == once[c] {
      assert Reset(once)[c].fields == once[c].fields;
    }
  }
}

=== FILE: operations.dfy ===
/** Operations of the captured workload trace, as the statistics code and
    `getReferencedFields` read them. */
module Operations {
  import opened Documents

  /** The operation kinds. `Isert` is the misspelt insert alias that
      `getReferencedFields` also accepts; the statistics code does not.
      `Unrecognised` holds only a type name that none of the other kinds
      stands for (never `$query`, `$insert`, `$update` or `$delete`); a
      known name is always its own constructor. */
  datatype OpType = Query | Insert | Isert | Update | Delete | Unrecognised(name: string)

  /** One traced operation: its collection, its kind, whether a query is an
      aggregate, and `query_content` (in the trace, a list of documents). */
  datatype Operation = Operation(collection: string, opType: OpType, aggregate: bool, content: Value)

  /** One workload record: the operations of one client session, in order. */
  datatype Session = Session(operations: seq<Operation>)
}

=== FILE: referenced.dfy ===
/** `getReferencedFields` (src/workload/utilmethods.py): the field names an
    operation touches, chosen by operation kind. */
module ReferencedFields {
  import opened Errors
  import opened Documents
  import opened Operations

  /** The key under which a query operation's content holds its predicate
      document: the name of the query operation kind. */
  const QueryContentKey := "$query"

  /** `v.keys()`. */
  function DictKeys(v: Value): (r: Result<seq<string>>)
    ensures r.Ok? <==> v.Dict?
    ensures r.Ok? ==> |r.value| == |v.entries| && Elems(r.value) == KeySet(v.entries)
  {
    if v.Dict? then Ok(Keys(v.entries))
    else Err(AttributeError("keys"))
  }

  /** Every key of every document in `docs`. */
  function KeyUnion(docs: seq<Value>): set<string> {
    set i, k | 0 <= i < |docs| && docs[i].Dict? && k in KeySet(docs[i].entries) :: k
  }

  /** `fields |= data.keys()` for each `data`, read as the set union it is
      meant to be; `acc` holds the fields gathered so far, each once. */
  function UnionFields(docs: seq<Value>, acc: seq<string>): (r: Result<seq<string>>)
    requires Distinct(acc)
    ensures r.Ok? <==> forall i | 0 <= i < |docs| :: docs[i].Dict?
    ensures r.Ok? ==> Distinct(r.value) && Elems(r.value) == Elems(acc) + KeyUnion(docs)
    ensures r.Ok? ==> |acc| <= |r.value| && r.value[..|acc|] == acc
    ensures r.Err? ==> r.error == AttributeError("keys")
  {
    if docs == [] then
      assert KeyUnion(docs) == {};
      Ok(acc)
    else
      match DictKeys(docs[0])
      case Err(e) => Err(e)
      case Ok(ks) =>
        var grown := AddNew(acc, ks);
        var r := UnionFields(docs[1..], grown);
        assert r.Ok? ==> r.value[..|acc|] == r.value[..|grown|][..|acc|];
        assert KeyUnion(docs) == KeySet(docs[0].entries) + KeyUnion(docs[1..]) by {
          KeyUnionCons(docs);
        }
        r
  }

  /** `acc` followed by the elements of `ks` it lacks, each once. */
  function AddNew(acc: seq<string>, ks: seq<string>): (r: seq<string>)
    requires Distinct(acc)
    ensures Distinct(r) && Elems(r) == Elems(acc) + Elems(ks)
    ensures |acc| <= |r| && r[..|acc|] == acc
    decreases |ks|
  {
    if ks == [] then acc
    else
      var next := if ks[0] in acc then acc else acc + [ks[0]];
      assert Elems(next) == Elems(acc) + {ks[0]};
      assert Elems(ks) == {ks[0]} + Elems(ks[1..]);
      var r := AddNew(next, ks[1..]);
      assert r[..|acc|] == r[..|next|][..|acc|];
      r
  }

  lemma KeyUnionCons(docs: seq<Value>)
    requires |docs| > 0 && docs[0].Dict?
    ensures KeyUnion(docs) == KeySet(docs[0].entries) + KeyUnion(docs[1..])
  {
    forall k | k in KeyUnion(docs) ensures k in KeySet(docs[0].entries) + KeyUnion(docs[1..]) {
      var i :| 0 <= i < |docs| && docs[i].Dict? && k in KeySet(docs[i].entries);
      if i > 0 {
        assert docs[1..][i - 1] == docs[i];
      }
    }
    forall k | k in KeyUnion(docs[1..]) ensures k in KeyUnion(docs) {
      var i :| 0 <= i < |docs[1..]| && docs[1..][i].Dict? && k in KeySet(docs[1..][i].entries);
      assert docs[i + 1] == docs[1..][i];
    }
  }

  /** Content that iterates to documents only. */
  predicate UpdateShape(content: Value) {
    Iterate(content).Some? && forall i | 0 <= i < |Iterate(content).value| :: Iterate(content).value[i].Dict?
  }

  /** The UPDATE branch with the union it intends: every field of every
      content document, each once. */
  function UpdateFields(content: Value): (r: Result<seq<string>>)
    ensures r.Ok? <==> UpdateShape(content)
    ensures r.Ok? ==> Distinct(r.value) && Elems(r.value) == KeyUnion(Iterate(content).value)
    ensures r.Err? ==> r.error.TypeError? || r.error.AttributeError?
  {
    match Iterate(content)
    case None => Err(TypeError("object is not iterable"))
    case Some(docs) => UnionFields(docs, [])
  }

  /** The UPDATE branch as written. Under Python 2, `data.keys()` is a list and
      `set |= list` raises TypeError, so the first document ends the call. */
  function UpdateFieldsAsWritten(content: Value): (r: Result<seq<string>>)
    ensures r.Ok? <==> Iterate(content) == Some([])
  {
    match Iterate(content)
    case None => Err(TypeError("object is not iterable"))
    case Some(docs) =>
      if docs == [] then Ok([])
      else if !docs[0].Dict? then Err(AttributeError("keys"))
      else Err(TypeError("unsupported operand type(s) for |=: 'set' and 'list'"))
  }

  /** Query content that is a dict holding a predicate document. */
  predicate QueryShape(content: Value) {
    content.Dict? && Lookup(content.entries, QueryContentKey).Some? && Lookup(content.entries, QueryContentKey).value.Dict?
  }

  /** The predicate document of a query. */
  function QueryPredicate(content: Value): Doc
    requires QueryShape(content)
  {
    Lookup(content.entries, QueryContentKey).value.entries
  }

  /** `content[OP_TYPE_QUERY].keys()`. */
  function QueryFields(content: Value): (r: Result<seq<string>>)
    ensures r.Ok? <==> QueryShape(content)
    ensures r.Ok? ==> |r.value| == |QueryPredicate(content)| && Elems(r.value) == KeySet(QueryPredicate(content))
    ensures r.Err? ==> r.error.TypeError? || r.error.KeyError? || r.error.AttributeError?
  {
    if !content.Dict? then Err(TypeError("object is not subscriptable"))
    else
      match Lookup(content.entries, QueryContentKey)
      case None => Err(KeyError(QueryContentKey))
      case Some(sub) => DictKeys(sub)
  }

  /** The kinds for which `fields` is never assigned, so that `return fields`
      raises. */
  predicate LeavesFieldsUnbound(op: Operation) {
    (op.opType == Query && op.aggregate) || op.opType.Unrecognised?
  }

  /** `getReferencedFields(op)`, with the UPDATE union as intended. */
  function GetReferencedFields(op: Operation): (r: Result<seq<string>>)
    ensures r == Err(UnboundLocal("fields")) <==> LeavesFieldsUnbound(op)
    ensures op.opType in {Insert, Isert, Delete} ==>
      (r.Ok? <==> op.content.Dict?) &&
      (r.Ok? ==> |r.value| == |op.content.entries| && Elems(r.value) == KeySet(op.content.entries))
    ensures op.opType == Query && !op.aggregate ==>
      (r.Ok? <==> QueryShape(op.content)) &&
      (r.Ok? ==> Elems(r.value) == KeySet(QueryPredicate(op.content)))
    ensures op.opType == Update ==>
      (r.Ok? <==> UpdateShape(op.content)) &&
      (r.Ok? ==> Distinct(r.value) && Elems(r.value) == KeyUnion(Iterate(op.content).value))
  {
    match op.opType
    case Query => if op.aggregate then Err(UnboundLocal("fields")) else QueryFields(op.content)
    case Delete => DictKeys(op.content)
    case Update => UpdateFields(op.content)
    case Insert => DictKeys(op.content)
    case Isert => DictKeys(op.content)
    case Unrecognised(_) => Err(UnboundLocal("fields"))
  }

  /** `getReferencedFields(op)` as written. */
  function GetReferencedFieldsAsWritten(op: Operation): (r: Result<seq<string>>)
    ensures op.opType != Update ==> r == GetReferencedFields(op)
    ensures op.opType == Update ==> (r.Ok? <==> Iterate(op.content) == Some([]))
  {
    if op.opType == Update then UpdateFieldsAsWritten(op.content) else GetReferencedFields(op)
  }

  /** As written, an UPDATE whose content holds a document fails, while the
      intended union succeeds whenever every element is a document. */
  lemma UpdateAsWrittenRejectsDocuments(op: Operation)
    requires op.opType == Update && op.content.List? && |op.content.items| > 0
    requires forall i | 0 <= i < |op.content.items| :: op.content.items[i].Dict?
    ensures GetReferencedFieldsAsWritten(op).Err?
    ensures GetReferencedFields(op).Ok?
  {
  }

  /** The smallest such input: one update document `{"a": 1}`. */
  lemma UpdateCounterexample()
    ensures GetReferencedFieldsAsWritten(Operation("c", Update, false, List([Dict([Entry("a", Int(1))])]))).Err?
    ensures GetReferencedFields(Operation("c", Update, false, List([Dict([Entry("a", Int(1))])]))) == Ok(["a"])
  {
    var doc := Dict([Entry("a", Int(1))]);
    assert Keys(doc.entries) == ["a"];
    assert AddNew([], ["a"]) == ["a"];
    assert UnionFields([doc], []) == UnionFields([], ["a"]);
  }
}

=== FILE: workload_stats.dfy ===
/** `StatsProcessor.processWorkload` (src/workload/stats.py): count, for every
    field of every collection, how often the traced operations reference it. */
module WorkloadStats {
  import opened Errors
  import opened Documents
  import opened Operations
  import opened Metadata

  /** Only the first 1000 workload records are read (`find().limit(1000)`). */
  const WorkloadLimit := 1000

  /** The key of a query content document that holds its predicate. */
  const QueryKey := "query"

  /** The kinds the statistics code recognises; other operations reference
      nothing and do not even iterate their content. */
  predicate Counted(kind: OpType) {
    kind in {Query, Insert, Update, Delete}
  }

  /** The field names one content document contributes, by operation kind:
      the keys of an insert or delete document (which must be a dict), the
      keys of an update document (skipped when not a dict), the keys of a
      query document's `query` entry (none when it is None). */
  function DocFields(kind: OpType, doc: Value): (r: Result<seq<string>>)
    requires Counted(kind)
    ensures r.Ok? && WellFormed(doc) ==> Distinct(r.value)
    ensures kind == Update ==> r.Ok?
    ensures kind == Update && !doc.Dict? ==> r == Ok([])
    ensures kind in {Insert, Delete} ==> (r.Ok? <==> doc.Dict?)
    ensures kind != Query && doc.Dict? ==> r.Ok? && Elems(r.value) == KeySet(doc.entries)
    ensures kind == Query ==> (r.Ok? <==> doc.Dict? && Lookup(doc.entries, QueryKey).Some? &&
                                          (Lookup(doc.entries, QueryKey).value.Null? || Lookup(doc.entries, QueryKey).value.Dict?))
    ensures kind == Query && r.Ok? ==>
              Elems(r.value) == if Lookup(doc.entries, QueryKey).value.Null? then {}
                                else KeySet(Lookup(doc.entries, QueryKey).value.entries)
  {
    if kind == Query then
      if !doc.Dict? then Err(TypeError("object is not subscriptable"))
      else
        (match Lookup(doc.entries, QueryKey)
         case None => Err(KeyError(QueryKey))
         case Some(q) =>
           if q.Null? then Ok([])
           else if q.Dict? then
             LookupWellFormed(doc.entries, QueryKey);
             Ok(Keys(q.entries))
           else Err(AttributeError("iteritems")))
    else
      if doc.Dict? then
        DictWellFormed(doc);
        Ok(Keys(doc.entries))
      else if kind == Update then Ok([])
      else Err(AttributeError("iteritems"))
  }

  /** The content documents whose contribution names `f`. */
  function Mentions(kind: OpType, docs: seq<Value>, f: string): nat
    requires Counted(kind)
  {
    if docs == [] then 0
    else
      var here := match DocFields(kind, docs[0]) case Ok(ks) => if f in ks then 1 else 0 case Err(_) => 0;
      here + Mentions(kind, docs[1..], f)
  }

  /** The (field, value) pairs of `tuples`, read for their field names, over
      all content documents in order. */
  function CollectFields(kind: OpType, docs: seq<Value>): (r: Result<seq<string>>)
    requires Counted(kind)
    ensures r.Ok? <==> forall i | 0 <= i < |docs| :: DocFields(kind, docs[i]).Ok?
    ensures r.Ok? && (forall i | 0 <= i < |docs| :: WellFormed(docs[i])) ==>
      forall f :: multiset(r.value)[f] == Mentions(kind, docs, f)
  {
    if docs == [] then Ok([])
    else
      CollectCons(kind, docs);
      var head := DocFields(kind, docs[0]);
      var tail := CollectFields(kind, docs[1..]);
      if head.Err? then Err(head.error)
      else if tail.Err? then Err(tail.error)
      else
        CollectStep(kind, docs, head.value, tail.value);
        Ok(head.value + tail.value)
  }

  lemma CollectCons(kind: OpType, docs: seq<Value>)
    requires Counted(kind) && docs != []
    ensures (forall i | 0 <= i < |docs| :: DocFields(kind, docs[i]).Ok?) <==>
      DocFields(kind, docs[0]).Ok? && forall i | 0 <= i < |docs[1..]| :: DocFields(kind, docs[1..][i]).Ok?
    ensures (forall i | 0 <= i < |docs| :: WellFormed(docs[i])) ==>
      WellFormed(docs[0]) && forall i | 0 <= i < |docs[1..]| :: WellFormed(docs[1..][i])
  {
    assert forall i | 0 <= i < |docs[1..]| :: docs[1..][i] == docs[i + 1];
  }

  lemma CollectStep(kind: OpType, docs: seq<Value>, ks: seq<string>, rest: seq<string>)
    requires Counted(kind) && |docs| > 0 && DocFields(kind, docs[0]) == Ok(ks)
    requires (forall i | 0 <= i < |docs[1..]| :: WellFormed(docs[1..][i])) ==>
      forall f :: multiset(rest)[f] == Mentions(kind, docs[1..], f)
    ensures (forall i | 0 <= i < |docs| :: WellFormed(docs[i])) ==>
      forall f :: multiset(ks + rest)[f] == Mentions(kind, docs, f)
  {
    if forall i | 0 <= i < |docs| :: WellFormed(docs[i]) {
      CollectCons(kind, docs);
      DistinctCount(ks);
    }
  }

  /** A list without repeats holds each element once. */
  lemma {:induction false} DistinctCount(ks: seq<string>)
    requires Distinct(ks)
    ensures forall f :: multiset(ks)[f] == if f in ks then 1 else 0
  {
    if ks != [] {
      assert ks == [ks[0]] + ks[1..];
      DistinctCount(ks[1..]);
    }
  }

  /** The pairs `processWorkload` extracts from one operation. */
  function ExtractFields(op: Operation): (r: Result<seq<string>>)
    ensures !Counted(op.opType) ==> r == Ok([])
    ensures Counted(op.opType) ==>
      (r.Ok? <==> Iterate(op.content).Some? &&
                  forall i | 0 <= i < |Iterate(op.content).value| :: DocFields(op.opType, Iterate(op.content).value[i]).Ok?)
  {
    if !Counted(op.opType) then Ok([])
    else
      match Iterate(op.content)
      case None => Err(TypeError("object is not iterable"))
      case Some(docs) => CollectFields(op.opType, docs)
  }

  /** A field referenced k times gains k uses; other fields keep theirs. */
  function Bump(fields: map<string, FieldStat>, names: seq<string>): (r: map<string, FieldStat>)
    ensures r.Keys == fields.Keys
    ensures forall f | f in fields :: r[f] == fields[f].(queryUseCount := fields[f].queryUseCount + multiset(names)[f])
    decreases |names|
  {
    if names == [] then fields
    else
      var f := names[0];
      var next := if f in fields then fields[f := fields[f].(queryUseCount := fields[f].queryUseCount + 1)] else fields;
      assert names == [f] + names[1..];
      Bump(next, names[1..])
  }

  /** Why one operation stops `processWorkload`: its content cannot be read
      the way its kind demands, or its collection has no metadata record. */
  predicate OpFails(cat: Catalog, op: Operation) {
    ExtractFields(op).Err? || op.collection !in cat
  }

  /** The body of the inner loop: extract the pairs, then bump the
      collection's fields. A missing collection record fails only once the
      pairs have been extracted, as the source reaches it only then. */
  function ProcessOp(cat: Catalog, op: Operation): (r: Result<Catalog>)
    ensures r.Ok? <==> !OpFails(cat, op)
    ensures ExtractFields(op).Err? ==> r == Err(ExtractFields(op).error)
    ensures ExtractFields(op).Ok? && op.collection !in cat ==> r == Err(MissingCollection(op.collection))
    ensures r.Ok? ==> SameExceptUseCounts(cat, r.value)
    ensures r.Ok? ==> forall c, f | c in cat && f in cat[c].fields ::
      r.value[c].fields[f].queryUseCount == cat[c].fields[f].queryUseCount + UsesBy(op, c, f)
  {
    match ExtractFields(op)
    case Err(e) => Err(e)
    case Ok(names) =>
      if op.collection !in cat then Err(MissingCollection(op.collection))
      else
        var c := op.collection;
        Ok(cat[c := cat[c].(fields := Bump(cat[c].fields, names))])
  }

  /** How many pairs naming `f` in collection `c` an operation contributes. */
  function UsesBy(op: Operation, c: string, f: string): nat {
    if op.collection == c && ExtractFields(op).Ok? then multiset(ExtractFields(op).value)[f] else 0
  }

  /** How many pairs naming `f` in collection `c` the operations contribute. */
  function Uses(ops: seq<Operation>, c: string, f: string): nat {
    if ops == [] then 0 else UsesBy(ops[0], c, f) + Uses(ops[1..], c, f)
  }

  /** Two catalogs that agree on everything but the fields' use counts. */
  predicate SameExceptUseCounts(a: Catalog, b: Catalog) {
    && a.Keys == b.Keys
    && (forall c | c in a ::
         a[c].fields.Keys == b[c].fields.Keys && a[c].tupleCount == b[c].tupleCount && a[c].avgDocSize == b[c].avgDocSize)
    && (forall c, f | c in a && f in a[c].fields && f in b[c].fields ::
         a[c].fields[f].(queryUseCount := 0) == b[c].fields[f].(queryUseCount := 0))
  }

  /** The loop over operations; it stops at the first failing one. */
  function ProcessOps(cat: Catalog, ops: seq<Operation>): (r: Result<Catalog>)
    ensures r.Ok? <==> forall i | 0 <= i < |ops| :: !OpFails(cat, ops[i])
    ensures r.Ok? ==> SameExceptUseCounts(cat, r.value)
    ensures r.Ok? ==> forall c, f | c in cat && f in cat[c].fields ::
      r.value[c].fields[f].queryUseCount == cat[c].fields[f].queryUseCount + Uses(ops, c, f)
  {
    if ops == [] then Ok(cat)
    else
      match ProcessOp(cat, ops[0])
      case Err(e) => Err(e)
      case Ok(next) =>
        var r := ProcessOps(next, ops[1..]);
        assert forall i | 0 <= i < |ops[1..]| :: ops[1..][i] == ops[i + 1];
        assert forall i | 0 <= i < |ops| :: OpFails(next, ops[i]) == OpFails(cat, ops[i]);
        r
  }

  /** The operations of the workload records, in order. */
  function Flatten(sessions: seq<Session>): seq<Operation> {
    if sessions == [] then [] else sessions[0].operations + Flatten(sessions[1..])
  }

  /** The operations `processWorkload` visits: those of the first 1000 records. */
  function VisitedOps(workload: seq<Session>): seq<Operation> {
    Flatten(if |workload| <= WorkloadLimit then workload else workload[..WorkloadLimit])
  }

  /** `StatsProcessor.processWorkload`. */
  function ProcessWorkload(cat: Catalog, workload: seq<Session>): (r: Result<Catalog>)
    ensures r.Ok? <==> forall op | op in VisitedOps(workload) :: !OpFails(cat, op)
    ensures r.Ok? ==> SameExceptUseCounts(cat, r.value)
    ensures r.Ok? ==> forall c, f | c in cat && f in cat[c].fields ::
      r.value[c].fields[f].queryUseCount == cat[c].fields[f].queryUseCount + Uses(VisitedOps(workload), c, f)
  {
    ProcessOps(cat, VisitedOps(workload))
  }
}

/** Properties of the workload statistics. */
module WorkloadLaws {
  import opened Errors
  import opened Documents
  import opened Operations
  import opened Metadata
  import opened WorkloadStats

  /** How many of `docs` are dicts holding key `f`. */
  function DocsContaining(docs: seq<Value>, f: string): nat {
    if docs == [] then 0
    else (if docs[0].Dict? && f in KeySet(docs[0].entries) then 1 else 0) + DocsContaining(docs[1..], f)
  }

  /** Whether a query content document's `query` entry is a dict holding `f`. */
  predicate QueryHolds(doc: Value, f: string) {
    && doc.Dict?
    && Lookup(doc.entries, QueryKey).Some?
    && Lookup(doc.entries, QueryKey).value.Dict?
    && f in KeySet(Lookup(doc.entries, QueryKey).value.entries)
  }

  /** How many of `docs` are query documents whose predicate holds `f`. */
  function QueriesContaining(docs: seq<Value>, f: string): nat {
    if docs == [] then 0 else (if QueryHolds(docs[0], f) then 1 else 0) + QueriesContaining(docs[1..], f)
  }

  /** An insert, delete or update document names `f` exactly when it is a
      dict holding `f`. */
  lemma {:induction false} WriteMentions(kind: OpType, docs: seq<Value>, f: string)
    requires kind in {Insert, Delete, Update}
    ensures Mentions(kind, docs, f) == DocsContaining(docs, f)
  {
    if docs != [] {
      WriteMentions(kind, docs[1..], f);
      if docs[0].Dict? {
        var ks := DocFields(kind, docs[0]).value;
        assert f in ks <==> f in KeySet(docs[0].entries) by {
          assert Elems(ks) == KeySet(docs[0].entries);
        }
      }
    }
  }

  /** A query document names `f` exactly when its predicate holds `f`. */
  lemma {:induction false} QueryMentions(docs: seq<Value>, f: string)
    ensures Mentions(Query, docs, f) == QueriesContaining(docs, f)
  {
    if docs != [] {
      QueryMentions(docs[1..], f);
      var d := docs[0];
      if d.Dict? && Lookup(d.entries, QueryKey).Some? && Lookup(d.entries, QueryKey).value.Dict? {
        var q := Lookup(d.entries, QueryKey).value;
        var ks := DocFields(Query, d).value;
        assert Elems(ks) == KeySet(q.entries) by {
          assert DocFields(Query, d) == Ok(Keys(q.entries));
        }
        assert f in ks <==> f in Elems(ks);
      }
    }
  }

  /** How many times one operation on collection `c` raises the use count of
      field `f`: once per content document naming it, by the document rules
      of its kind; unrecognised kinds contribute nothing. */
  function Expected(op: Operation, f: string): nat
    requires op.content.List?
  {
    match op.opType
    case Insert => DocsContaining(op.content.items, f)
    case Delete => DocsContaining(op.content.items, f)
    case Update => DocsContaining(op.content.items, f)
    case Query => QueriesContaining(op.content.items, f)
    case _ => 0
  }

  /** Per-pair counting: processing one operation raises each field of its
      collection by the number of its content documents that name the field,
      and leaves every other collection alone. */
  lemma PerPairCounting(cat: Catalog, op: Operation)
    requires op.content.List? && WellFormed(op.content)
    requires ProcessOp(cat, op).Ok?
    ensures var r := ProcessOp(cat, op).value;
      && (forall f | f in cat[op.collection].fields ::
            r[op.collection].fields[f].queryUseCount == cat[op.collection].fields[f].queryUseCount + Expected(op, f))
      && (forall c | c in cat && c != op.collection :: r[c] == cat[c])
  {
    ListWellFormed(op.content);
    var docs := op.content.items;
    forall f ensures UsesBy(op, op.collection, f) == Expected(op, f) {
      if op.opType in {Insert, Delete, Update} {
        WriteMentions(op.opType, docs, f);
      } else if op.opType == Query {
        QueryMentions(docs, f);
      }
    }
  }

  /** After `reset`, the workload pass leaves each field's use count equal to
      the number of pairs naming it, with cardinality and selectivity still 0. */
  lemma ResetThenWorkload(cat: Catalog, workload: seq<Session>)
    requires ProcessWorkload(Reset(cat), workload).Ok?
    ensures var r := ProcessWorkload(Reset(cat), workload).value;
      && r.Keys == cat.Keys
      && forall c, f | c in cat && f in cat[c].fields ::
           && r[c].fields[f].queryUseCount == Uses(VisitedOps(workload), c, f)
           && r[c].fields[f].cardinality == 0 && r[c].fields[f].selectivity == 0
           && r[c].fields[f].fieldType == cat[c].fields[f].fieldType
  {
    var z := Reset(cat);
    var r := ProcessWorkload(z, workload).value;
    forall c, f | c in cat && f in cat[c].fields
      ensures r[c].fields[f].cardinality == 0 && r[c].fields[f].selectivity == 0
      ensures r[c].fields[f].fieldType == cat[c].fields[f].fieldType
    {
      assert z[c].fields[f].(queryUseCount := 0) == r[c].fields[f].(queryUseCount := 0);
    }
  }

  /** Records after the first 1000 are never read. */
  lemma LaterRecordsIgnored(cat: Catalog, workload: seq<Session>, more: seq<Session>)
    requires |workload| >= WorkloadLimit
    ensures ProcessWorkload(cat, workload + more) == ProcessWorkload(cat, workload)
  {
    var all := workload + more;
    var read := workload[..WorkloadLimit];
    assert all[..WorkloadLimit] == read;
    assert (if |all| <= WorkloadLimit then all else all[..WorkloadLimit]) == read by {
      if |all| == WorkloadLimit {
        assert all == workload == read;
      }
    }
    assert (if |workload| <= WorkloadLimit then workload else read) == read;
  }
}
